=== FILE: README.md ===
# NutriPlan: the plan calculator, form validators and user-update builder in Dafny

NutriPlan is a nutrition-tracking app made of a REST backend and a mobile client.
This project models the parts of it that compute or decide something without I/O:

- **Plan calculator** (backend `PlanRoutes.ts`). `calculateCaloriesTarget` computes a
  Mifflin-St Jeor BMR in its male form (10·weight + 6.25·height − 5·age + 5). It multiplies
  that by a fixed sedentary factor of 1.2, adds −500, +500 or 0 kcal by goal, and rounds.
  `calculateMacros` splits the same rounded target into protein/carbs/fat grams. It uses
  per-goal percentages and 4/4/9 kcal per gram. Goal matching is on the lower-cased goal
  string. Module `Nutrition`, file `nutrition.dfy`.
- **Plan handlers** (`POST /plans`, `PUT /plans/:id`). These cover the guards, the BMI
  derivation when none is supplied, and two shallow merges. The first merge puts the caller's
  `plan_data` over the computed plan. The second puts new `plan_data` over the stored plan,
  with a `bmi` fallback. Module `PlanRoutes`, file `plan_routes.dfy`.
- **Onboarding form** (client `onboarding.tsx`). `GOAL_OPTIONS` is the goal table.
  `handleSubmit` checks, in order: required fields, then age 10–120, height 100–250 cm and
  weight 30–300 kg. All bounds are inclusive and only the first failure is reported.
  Module `Onboarding`.
- **Sign-up form** (client `signup.tsx`). The checks run in order: required, then
  passwords match, then length ≥ 6. The registration payload leaves out `confirmPassword`.
  Module `Signup`.
- **User routes** (backend `UserRoutes.ts`). `PUT /user` has a field guard and builds a
  dynamic `UPDATE` statement from `updates`/`values`. `PUT /user/password` has input
  guards. Module `UserRoutes`.

Shared pieces are `Common` (Option, Result, HTTP error replies and JavaScript truthiness)
and `Validation` (the first failing check of an ordered list, used by both forms).

Numbers are exact reals. 6.25 is written 25/4 and 1.2 is 6/5. `Math.round(x)` is
`Floor(x + 1/2)`, which is the nearest integer with halves rounded up. Database lookups, the
password-hash comparison and the number parsing of the form fields are inputs to the model.
What a handler would write or run is its result.

Some facts are proved across files:

- The client's goal ids are `lose_weight`, `gain_weight`, `maintain_weight`, `build_muscle`
  and `improve_health`. None of them equals a goal name the server recognises once
  lower-cased (`lose weight`, `weight loss`, `gain weight`, `weight gain`). So every goal
  chosen on the onboarding screen gets the maintenance target and split
  (`Onboarding.ClientGoalsAreMaintenance`).
- For 25 years, 175 cm, 70 kg and "lose weight", the BMR is 1673.75 and the target is
  round(1508.5) = 1509. The macros are 113 g, 151 g and 50 g (`Nutrition.LoseWeightExample`).

What the calculator in the code does not do, and the model therefore leaves out as well:

- There is no 1200 kcal minimum on the target.
- There is no `build_muscle` branch; that goal falls to the default.
- No BMI category (underweight, normal, ...) is computed.
- The BMR always uses the male form of Mifflin-St Jeor (+5); there is no sex input.

## Model

| member | source | states |
|---|---|---|
| Nutrition.Round | backend/routes/PlanRoutes.ts:256 | `Math.round` gives the integer r with x − 1/2 < r ≤ x + 1/2, so halves round up |
| Nutrition.ToLower | backend/routes/PlanRoutes.ts:242 | `toLowerCase` keeps the length, leaves no upper-case letter, changes nothing but letters, and agrees with its input up to letter case |
| Nutrition.Bmr | backend/routes/PlanRoutes.ts:236 | the male Mifflin-St Jeor BMR; what each input is worth is stated by Nutrition.BmrWeights |
| Nutrition.BmrWeights | backend/routes/PlanRoutes.ts:236 | each kilogram adds 10 kcal, each centimetre 6.25 kcal, each year takes 5 kcal away, and an all-zero profile gets 5 kcal |
| Nutrition.GoalOf | backend/routes/PlanRoutes.ts:242-254 | the lower-cased goal picks the loss, gain or default branch, and a missing goal picks the default; both directions of each branch are in Nutrition.GoalTable |
| Nutrition.Adjustment | backend/routes/PlanRoutes.ts:241-254 | the adjustment is negative exactly for the loss branch, positive exactly for the gain branch, and at most 500 kcal either way |
| Nutrition.CaloriesTarget | backend/routes/PlanRoutes.ts:230-257 | the target is within half a kcal of (10·weight + 6.25·height − 5·age + 5)·1.2 plus the goal's adjustment, with ties rounded up |
| Nutrition.GoalTable | backend/routes/PlanRoutes.ts:242-254 | a goal selects the loss branch iff its lower-cased form is "lose weight" or "weight loss", and the gain branch iff it is "gain weight" or "weight gain"; every other goal is the default |
| Nutrition.GoalIgnoresCase | backend/routes/PlanRoutes.ts:242 | two goal strings that differ only in letter case select the same branch |
| Nutrition.GoalAdjustsTarget | backend/routes/PlanRoutes.ts:241-254 | the rounded target is exactly the maintenance target −500 for loss, +500 for gain, and unchanged otherwise, for every profile |
| Nutrition.SplitOf | backend/routes/PlanRoutes.ts:263-288 | in every goal branch the protein/carb/fat percentages are positive and sum to exactly 1 |
| Nutrition.MacrosOf | backend/routes/PlanRoutes.ts:259-299 | each gram count is within half a gram of the same rounded target times the goal's percentage, divided by 4, 4 or 9 |
| Nutrition.Grams | backend/routes/PlanRoutes.ts:290-298 | each gram count is within half a gram of its share of the calories divided by 4, 4 or 9, as `Math.round` gives |
| Nutrition.MacrosMatchTarget | backend/routes/PlanRoutes.ts:290-298 | 4·protein + 4·carbs + 9·fat lies in (target − 8.5, target + 8.5], so it is within 8 kcal of the target |
| Nutrition.CaseInsensitivePlan | backend/routes/PlanRoutes.ts:242-267 | profiles whose goals differ only in letter case get identical calorie targets and identical macros |
| Nutrition.LoseWeightExample | backend/routes/PlanRoutes.ts:236-298 | for 25 y, 175 cm, 70 kg and "lose weight" the target is 1509 kcal and the macros are 113/151/50 g |
| PlanRoutes.Bmi | backend/routes/PlanRoutes.ts:50-52 | the BMI times the height in metres squared gives back the weight, and it is positive for a positive weight |
| PlanRoutes.DeriveBmi | backend/routes/PlanRoutes.ts:47-53 | a truthy supplied `bmi` is used unchanged; otherwise, if height and weight are non-zero, the BMI is weight/(height/100)²; otherwise the supplied value stays |
| PlanRoutes.Spread | backend/routes/PlanRoutes.ts:197-200 | an object spread: the keys are the union, the second object's keys win, the first object's other keys are kept, and a missing object spreads nothing |
| PlanRoutes.ComputedPlan | backend/routes/PlanRoutes.ts:56-63 | the computed plan has exactly the fields goal, age, height, weight, bmi, calories_target and macros, holding the profile's goal (null if absent) and numbers, the given BMI, the calculated target and the protein/carbs/fat grams of that target |
| PlanRoutes.GeneratePlan | backend/routes/PlanRoutes.ts:56-65 | without `plan_data` the plan is the computed one; with it, the keys are the union and every `plan_data` key carries the caller's value (the kept computed values are in PlanRoutes.CallerDataOverridesComputed) |
| PlanRoutes.CallerDataOverridesComputed | backend/routes/PlanRoutes.ts:56-65 | every `plan_data` key carries the caller's value, every computed field not named there keeps its computed value, and no other key appears |
| PlanRoutes.CreatePlan | backend/routes/PlanRoutes.ts:23-69 | a missing body gets 400, a falsy user_id gets 400 and a missing profile gets 404, in that order; otherwise the inserted row has the request's user_id, the derived BMI, and as plan data the computed plan overridden by `plan_data` |
| PlanRoutes.CreatedPlanWithoutOverrides | backend/routes/PlanRoutes.ts:56-68 | without `plan_data`, the stored plan has exactly the seven computed fields: the profile's goal, age, height and weight, a `bmi` field agreeing with the `bmi` column, the calculated target, and protein, carbs and fat of that target |
| PlanRoutes.UpdatePlan | backend/routes/PlanRoutes.ts:165-206 | a missing body gets 400, and a request with neither `plan_data` nor a truthy `bmi` gets 400; a missing plan gets 404; otherwise the row keeps its user_id, the new keys win, the untouched old keys are kept, an update without `plan_data` keeps the plan data exactly, and `bmi` becomes the new truthy value or else stays the old one |
| PlanRoutes.UpdateIdempotent | backend/routes/PlanRoutes.ts:197-205 | applying the same successful update twice stores the same row as applying it once |
| PlanRoutes.BmiOnlyUpdateKeepsPlan | backend/routes/PlanRoutes.ts:177-205 | an update that carries only a truthy `bmi` replaces the bmi column and leaves the plan data untouched |
| Validation.FirstFailing | front/MyApp/app/onboarding.tsx:36-63 | returns None iff every check passes; otherwise returns the index of a failing check that all earlier checks pass |
| Onboarding.Submit | front/MyApp/app/onboarding.tsx:36-78 | accepted iff all four fields are non-empty and age ∈ [10,120], height ∈ [100,250] and weight ∈ [30,300]; an empty field is always reported as "Please fill in all fields"; the payload is the parsed numbers and the goal unchanged |
| Onboarding.SubmitReportsFirstFailure | front/MyApp/app/onboarding.tsx:36-63 | the reported message is that of the first failing check in the order fields, age, height, weight; submission succeeds when none fails |
| Onboarding.BoundsInclusive | front/MyApp/app/onboarding.tsx:50-63 | the values 10/120, 100/250 and 30/300 are accepted, and a value past each bound is rejected with the message for that field |
| Onboarding.Apply | front/MyApp/app/onboarding.tsx:132-184 | pressing a goal button sets the goal to that option's id; typing into a number field leaves the goal as it was |
| Onboarding.GoalStaysAnOption | front/MyApp/app/onboarding.tsx:17-23 | after any sequence of edits, the goal is still empty or one of the five `GOAL_OPTIONS` ids |
| Onboarding.SubmitKeepsGoal | front/MyApp/app/onboarding.tsx:72-78 | an accepted form whose goal is empty or a button id sends a button id |
| Onboarding.SubmittedGoalIsAnOption | front/MyApp/app/onboarding.tsx:72-78 | a valid submission from the screen sends the parsed numbers and one of the five goal ids, unchanged |
| Onboarding.ClientGoalsAreMaintenance | front/MyApp/app/onboarding.tsx:18-19 | no client goal id selects a loss or gain branch on the server, so each gets the maintenance calorie target |
| Signup.SignUp | front/MyApp/app/signup.tsx:29-51 | accepted iff username, email and password are non-empty, the password equals its confirmation and is at least 6 characters long; the payload repeats exactly those three fields; an empty field is reported as "Please fill in all fields" |
| Signup.SignUpReportsFirstFailure | front/MyApp/app/signup.tsx:31-44 | the reported message is that of the first failing check in the order required, match, length |
| Signup.SixCharactersSuffice | front/MyApp/app/signup.tsx:41-44 | with filled fields, every matching password of length 6 passes, and every matching one of length 5 is rejected for its length |
| Signup.MismatchBeforeLength | front/MyApp/app/signup.tsx:36-44 | with filled fields, every password that differs from its confirmation is reported as a mismatch, whatever its length |
| UserRoutes.UpdateUser | backend/routes/UserRoutes.ts:90-160 | a missing body gets 400; neither a truthy name nor a truthy email gets 400; an unknown user gets 404; an email taken by someone else gets 400 "Email already in use", in that order; otherwise the statement built from the body's name and email and the user id is run |
| UserRoutes.Clauses | backend/routes/UserRoutes.ts:144-155 | "name = ?" is present iff name is truthy and "email = ?" iff email is truthy, each at most once, with the name clause first and no other clause |
| UserRoutes.Join | backend/routes/UserRoutes.ts:159 | `join` gives "" for no parts; otherwise it starts with the first part, ends with the last, and is as long as all parts plus one separator fewer than there are parts |
| UserRoutes.Values | backend/routes/UserRoutes.ts:145-157 | the values follow the clauses position by position, with the user id last, so there is one more value than clauses |
| UserRoutes.JoinPlaceholders | backend/routes/UserRoutes.ts:159 | joining clauses that each hold one `?`, with a separator that holds none, gives text with one `?` per clause |
| UserRoutes.Query | backend/routes/UserRoutes.ts:159 | the query text holds exactly one `?` more than there are clauses |
| UserRoutes.QueryPlaceholders | backend/routes/UserRoutes.ts:159 | the fixed prefix adds no `?`, each joined clause adds one and the `WHERE id = ?` suffix adds one |
| UserRoutes.BuildUpdate | backend/routes/UserRoutes.ts:143-159 | the query's `?` count equals the number of bound values |
| UserRoutes.StatementShapes | backend/routes/UserRoutes.ts:144-159 | the query is "UPDATE users SET " + the clauses joined by ", " + " WHERE id = ?", with the values in clause order and the id last, for each of the three field combinations |
| UserRoutes.ChangePassword | backend/routes/UserRoutes.ts:185-250 | a missing body gets 400; a missing password gets 400 "Both currentPassword and newPassword are required"; then a new password under 6 characters gets 400 "New password must be at least 6 characters long", an unknown user gets 404 and a wrong current password gets 400 "Current password is incorrect", in that order; accepted iff none of these applies, and then the new password is what gets hashed |
| UserRoutes.PasswordGuardsPrecedeLookup | backend/routes/UserRoutes.ts:210-227 | when a password is missing or the new one is short, the result is a 400 that no user lookup or hash comparison can change |

## Left out

- Fastify routing, reply plumbing and the 500 replies for thrown errors are not modelled. One of those 500s follows every successful `POST /plans`: the database is opened through the `sqlite` wrapper (`backend/server.ts:7,55-58`), whose `run()` result has `lastID` and no `lastInsertRowid`, so the check at `PlanRoutes.ts:72` throws after the INSERT and the reply is 500 (line 98). `PlanRoutes.CreatePlan`'s Ok result is the row that gets written, although the reply that follows it is that 500. Every SQLite read and write is left out too: lookups are inputs, and writes are the handlers' results.
- JWT verification and its 401 replies are not modelled. The handlers take the verified user id as an input.
- bcrypt hashing and comparison are not modelled. The comparison is a boolean input.
- `JSON.stringify` and `JSON.parse` of the stored plan are not modelled. This matters in one place: a `bmi` field that is `undefined` disappears from the stored text, while the model keeps it as `Undefined`.
- The `plan_data` of a request is modelled as an object or absent. Spreading a string, an array or another non-object value is not modelled.
- `parseInt` and `parseFloat` are not modelled. The parsed numbers are inputs, so NaN, which slips through the range checks, is out of scope.
- IEEE-754 double arithmetic is not modelled. 1.2, 0.3 and 0.45 are inexact in the source but exact here. Values that land near a .5 boundary may round differently in the source.
- Nutrition.ToLower: `toLowerCase` is modelled on ASCII letters only. There is no Unicode case mapping.
- Signup.SignUp: `password.length` counts UTF-16 code units in the source. The model counts characters. The same applies to UserRoutes.ChangePassword.
- The `GET /plans`, `GET /user` and `GET /user/profile` handlers are not modelled. Nor are registration, login, onboarding storage, admin routes, the API service or the React state and navigation. These are database reads, library calls and UI code.
- Neither the plan routes nor the user routes are registered with the server (`backend/server.ts:61-63` registers only the register, admin and onboarding routes). This does not change the pure logic modelled here.

=== FILE: common.dfy ===
/** Shared vocabulary: optional values, results, HTTP error replies and the
    JavaScript notion of a "truthy" field that every handler guards on. */
module Common {

  /** A field that may be absent (`undefined` or `null` in the source). */
  datatype Option<+T> = None | Some(value: T)

  /** Either a value or the error the handler or form reports instead. */
  datatype Result<+T, +E> = Ok(value: T) | Err(error: E)

  /** An HTTP error reply: its status code and the `error` text of its body. */
  datatype HttpError = HttpError(status: int, message: string)

  /** `!!s` for an optional string: present and not the empty string. */
  predicate StrTruthy(s: Option<string>) {
    s.Some? && s.value != ""
  }

  /** `!!x` for an optional number: present and not zero (NaN is not modelled). */
  predicate NumTruthy(x: Option<real>) {
    x.Some? && x.value != 0.0
  }
}

=== FILE: nutrition.dfy ===
/** The plan helpers of backend/routes/PlanRoutes.ts: `calculateCaloriesTarget`
    (Mifflin-St Jeor BMR, male form, times a sedentary activity factor, plus a
    goal adjustment, rounded) and `calculateMacros` (a per-goal percentage split
    of that target into grams). Numbers are exact reals: 6.25 is 25/4 and 1.2 is
    6/5; `Math.round(x)` is `Floor(x + 1/2)`. */
module Nutrition {
  import opened Common

  /** A stored profile row, as the helpers read it. `goal` is `None` when the
      column is null. */
  datatype Profile = Profile(age: real, height: real, weight: real, goal: Option<string>)

  /** The three branches of the goal `switch`. */
  datatype Goal = LoseWeight | GainWeight | Maintain

  /** Percentages of the calorie target given to protein, carbs and fat. */
  datatype Split = Split(protein: real, carbs: real, fat: real)

  /** Grams of each macronutrient. */
  datatype Macros = Macros(protein: int, carbs: int, fat: int)

  /** Sedentary activity factor, 1.2. */
  const ActivityFactor: real := 6.0 / 5.0

  /** Kilocalories per gram (Atwater factors). */
  const ProteinKcal: real := 4.0
  const CarbKcal: real := 4.0
  const FatKcal: real := 9.0

  // ---------------------------------------------------------------------------
  // Rounding and case folding

  /** JavaScript `Math.round`: the nearest integer, halves rounded up. */
  function Round(x: real): (r: int)
    ensures x - 1.0 / 2.0 < r as real <= x + 1.0 / 2.0
  {
    (x + 1.0 / 2.0).Floor
  }

  /** The nearest-integer property pins the rounded value down uniquely. */
  lemma RoundUnique(x: real, n: int)
    requires x - 1.0 / 2.0 < n as real <= x + 1.0 / 2.0
    ensures Round(x) == n
  {
    var r := Round(x);
    assert r as real - n as real < 1.0 && n as real - r as real < 1.0;
  }

  /** Adding a whole number before rounding adds it after rounding. */
  lemma RoundShift(x: real, n: int)
    ensures Round(x + n as real) == Round(x) + n
  {
    RoundUnique(x + n as real, Round(x) + n);
  }

  /** `toLowerCase` on one character (ASCII letters only). */
  function LowerChar(c: char): char {
    if 'A' <= c <= 'Z' then (c as int + 32) as char else c
  }

  /** `toLowerCase` on a string: the same length, no upper-case letter left,
      every other character unchanged, and equal to `s` up to letter case. */
  function ToLower(s: string): (r: string)
    ensures |r| == |s|
    ensures forall i :: 0 <= i < |r| ==> !('A' <= r[i] <= 'Z')
    ensures forall i :: 0 <= i < |s| && !('A' <= s[i] <= 'Z') ==> r[i] == s[i]
    ensures SameIgnoringCase(s, r)
  {
    seq(|s|, i requires 0 <= i < |s| => LowerChar(s[i]))
  }

  /** Two strings that differ at most in the case of their letters. */
  predicate SameIgnoringCase(s: string, t: string) {
    |s| == |t| && forall i :: 0 <= i < |s| ==> LowerChar(s[i]) == LowerChar(t[i])
  }

  // ---------------------------------------------------------------------------
  // The goal table

  /** `switch (profile.goal?.toLowerCase())`: a missing goal, like any string
      outside the four recognised ones, reaches `default`. */
  function GoalOf(goal: Option<string>): (r: Goal)
    ensures goal.None? ==> r == Maintain
    ensures r == LoseWeight ==> goal.Some? && ToLower(goal.value) in {"lose weight", "weight loss"}
    ensures r == GainWeight ==> goal.Some? && ToLower(goal.value) in {"gain weight", "weight gain"}
  {
    match goal
    case None => Maintain
    case Some(g) =>
      var l := ToLower(g);
      if l == "lose weight" || l == "weight loss" then LoseWeight
      else if l == "gain weight" || l == "weight gain" then GainWeight
      else Maintain
  }

  /** The calorie adjustment of each branch: a deficit only for weight loss,
      a surplus only for weight gain, never more than 500 kcal either way. */
  function Adjustment(g: Goal): (r: int)
    ensures r < 0 <==> g == LoseWeight
    ensures r > 0 <==> g == GainWeight
    ensures -500 <= r <= 500
  {
    match g
    case LoseWeight => -500
    case GainWeight => 500
    case Maintain => 0
  }

  /** The macro percentages of each branch; they always add up to the whole
      target. */
  function SplitOf(g: Goal): (s: Split)
    ensures s.protein + s.carbs + s.fat == 1.0
    ensures 0.0 < s.protein && 0.0 < s.carbs && 0.0 < s.fat
  {
    match g
    case LoseWeight => Split(3.0 / 10.0, 4.0 / 10.0, 3.0 / 10.0)
    case GainWeight => Split(1.0 / 4.0, 1.0 / 2.0, 1.0 / 4.0)
    case Maintain => Split(1.0 / 4.0, 9.0 / 20.0, 3.0 / 10.0)
  }

  /** Which lower-cased goal names select which branch, both directions. */
  lemma GoalTable(g: string)
    ensures GoalOf(Some(g)) == LoseWeight <==> ToLower(g) in {"lose weight", "weight loss"}
    ensures GoalOf(Some(g)) == GainWeight <==> ToLower(g) in {"gain weight", "weight gain"}
    ensures GoalOf(Some(g)) == Maintain <==>
              ToLower(g) !in {"lose weight", "weight loss", "gain weight", "weight gain"}
  {
  }

  /** Goal matching ignores the case of letters. */
  lemma GoalIgnoresCase(s: string, t: string)
    requires SameIgnoringCase(s, t)
    ensures GoalOf(Some(s)) == GoalOf(Some(t))
  {
    assert ToLower(s) == ToLower(t);
  }

  // ---------------------------------------------------------------------------
  // calculateCaloriesTarget

  /** Mifflin-St Jeor basal metabolic rate, male form (+5). */
  function Bmr(p: Profile): real {
    10.0 * p.weight + 25.0 / 4.0 * p.height - 5.0 * p.age + 5.0
  }

  /** What each input is worth to the BMR: 10 kcal per kilogram, 6.25 kcal per
      centimetre, minus 5 kcal per year, and 5 kcal for a zero profile. */
  lemma BmrWeights(p: Profile, d: real)
    ensures Bmr(p.(weight := p.weight + d)) == Bmr(p) + 10.0 * d
    ensures Bmr(p.(height := p.height + d)) == Bmr(p) + 6.25 * d
    ensures Bmr(p.(age := p.age + d)) == Bmr(p) - 5.0 * d
    ensures Bmr(Profile(0.0, 0.0, 0.0, p.goal)) == 5.0
  {
  }

  /** `calculateCaloriesTarget`: the activity-adjusted BMR plus the goal
      adjustment, rounded to the nearest kilocalorie. */
  function CaloriesTarget(p: Profile): (r: int)
    ensures var exact := (10.0 * p.weight + 6.25 * p.height - 5.0 * p.age + 5.0) * 1.2
                         + Adjustment(GoalOf(p.goal)) as real;
            exact - 0.5 < r as real <= exact + 0.5
  {
    Round(Bmr(p) * ActivityFactor + Adjustment(GoalOf(p.goal)) as real)
  }

  /** The target before any goal adjustment: the one a missing goal yields. */
  function MaintenanceTarget(p: Profile): int {
    CaloriesTarget(p.(goal := None))
  }

  /** The goal adjustment is exactly -500, +500 or 0 kcal on the rounded
      maintenance target, whatever the profile's numbers. */
  lemma GoalAdjustsTarget(p: Profile)
    ensures GoalOf(p.goal) == LoseWeight ==> CaloriesTarget(p) == MaintenanceTarget(p) - 500
    ensures GoalOf(p.goal) == GainWeight ==> CaloriesTarget(p) == MaintenanceTarget(p) + 500
    ensures GoalOf(p.goal) == Maintain ==> CaloriesTarget(p) == MaintenanceTarget(p)
  {
    var base := Bmr(p) * ActivityFactor;
    assert MaintenanceTarget(p) == Round(base + 0 as real);
    RoundShift(base, 0);
    RoundShift(base, Adjustment(GoalOf(p.goal)));
  }

  // ---------------------------------------------------------------------------
  // calculateMacros

  /** `calculateMacros`: the goal's percentages of the same rounded target,
      converted to grams at 4/4/9 kcal per gram and rounded. */
  function MacrosOf(p: Profile): (m: Macros)
    ensures var cal := CaloriesTarget(p) as real;
            var s := SplitOf(GoalOf(p.goal));
            && cal * s.protein / 4.0 - 0.5 < m.protein as real <= cal * s.protein / 4.0 + 0.5
            && cal * s.carbs / 4.0 - 0.5 < m.carbs as real <= cal * s.carbs / 4.0 + 0.5
            && cal * s.fat / 9.0 - 0.5 < m.fat as real <= cal * s.fat / 9.0 + 0.5
  {
    Grams(CaloriesTarget(p), SplitOf(GoalOf(p.goal)))
  }

  /** Splits `calories` by the percentages `s` and rounds each share to grams:
      each gram count is within half a gram of its exact share. */
  function Grams(calories: int, s: Split): (m: Macros)
    ensures var cal := calories as real;
            && cal * s.protein / 4.0 - 0.5 < m.protein as real <= cal * s.protein / 4.0 + 0.5
            && cal * s.carbs / 4.0 - 0.5 < m.carbs as real <= cal * s.carbs / 4.0 + 0.5
            && cal * s.fat / 9.0 - 0.5 < m.fat as real <= cal * s.fat / 9.0 + 0.5
  {
    Macros(Round(calories as real * s.protein / ProteinKcal),
           Round(calories as real * s.carbs / CarbKcal),
           Round(calories as real * s.fat / FatKcal))
  }

  /** The energy of the macro grams, at 4/4/9 kcal per gram. */
  function MacroEnergy(m: Macros): int {
    4 * m.protein + 4 * m.carbs + 9 * m.fat
  }

  /** The macros account for the calorie target to within 8.5 kcal: each of the
      three roundings is off by at most half a gram. */
  lemma MacrosMatchTarget(p: Profile)
    ensures var cal := CaloriesTarget(p);
            cal as real - 17.0 / 2.0 < MacroEnergy(MacrosOf(p)) as real <= cal as real + 17.0 / 2.0
    ensures -8 <= MacroEnergy(MacrosOf(p)) - CaloriesTarget(p) <= 8
  {
    var cal := CaloriesTarget(p) as real;
    var s := SplitOf(GoalOf(p.goal));
    var m := MacrosOf(p);
    var x, y, z := cal * s.protein / 4.0, cal * s.carbs / 4.0, cal * s.fat / 9.0;
    assert 4.0 * x + 4.0 * y + 9.0 * z == cal * (s.protein + s.carbs + s.fat);
    assert 4.0 * x + 4.0 * y + 9.0 * z == cal;
    assert 4.0 * x - 2.0 < 4.0 * m.protein as real <= 4.0 * x + 2.0;
    assert 4.0 * y - 2.0 < 4.0 * m.carbs as real <= 4.0 * y + 2.0;
    assert 9.0 * z - 4.5 < 9.0 * m.fat as real <= 9.0 * z + 4.5;
  }

  /** Profiles that differ only in the letter case of their goal get the same
      calorie target and the same macros. */
  lemma CaseInsensitivePlan(p: Profile, q: Profile)
    requires p.age == q.age && p.height == q.height && p.weight == q.weight
    requires p.goal.None? <==> q.goal.None?
    requires p.goal.Some? ==> SameIgnoringCase(p.goal.value, q.goal.value)
    ensures CaloriesTarget(p) == CaloriesTarget(q)
    ensures MacrosOf(p) == MacrosOf(q)
  {
    if p.goal.Some? {
      GoalIgnoresCase(p.goal.value, q.goal.value);
    }
    assert GoalOf(p.goal) == GoalOf(q.goal);
    assert Bmr(p) == Bmr(q);
  }

  /** A worked example: 25 years, 175 cm, 70 kg, "lose weight". The BMR is
      700 + 1093.75 - 125 + 5 = 1673.75, the adjusted target
      2008.5 - 500 = 1508.5, rounded up to 1509; the macros are 113 g, 151 g
      and 50 g. */
  lemma LoseWeightExample()
    ensures var p := Profile(25.0, 175.0, 70.0, Some("lose weight"));
            CaloriesTarget(p) == 1509 && MacrosOf(p) == Macros(113, 151, 50)
  {
    var p := Profile(25.0, 175.0, 70.0, Some("lose weight"));
    assert ToLower("lose weight") == "lose weight";
    assert Bmr(p) == 1673.75;
    RoundUnique(1508.5, 1509);
    RoundUnique(1509.0 * (3.0 / 10.0) / 4.0, 113);
    RoundUnique(1509.0 * (4.0 / 10.0) / 4.0, 151);
    RoundUnique(1509.0 * (3.0 / 10.0) / 9.0, 50);
  }
}

=== FILE: onboarding.dfy ===
/** The onboarding screen of front/MyApp/app/onboarding.tsx: the goal options
    the user can pick from, and the validation `handleSubmit` performs before
    it submits the profile. `parseInt`/`parseFloat` are not modelled: the
    already-parsed numbers are inputs alongside the form's text fields. */
module Onboarding {
  import opened Common
  import Validation
  import Nutrition

  /** One entry of `GOAL_OPTIONS`: its `id` and its `label` (`label` is a
      reserved word in Dafny, hence `labelText`). */
  datatype GoalOption = GoalOption(id: string, labelText: string)

  /** `GOAL_OPTIONS`, in display order. */
  const GoalOptions: seq<GoalOption> := [
    GoalOption("lose_weight", "Lose Weight"),
    GoalOption("gain_weight", "Gain Weight"),
    GoalOption("maintain_weight", "Maintain Weight"),
    GoalOption("build_muscle", "Build Muscle"),
    GoalOption("improve_health", "Improve Health")
  ]

  /** The form state: four text fields, as typed or selected. */
  datatype Form = Form(age: string, height: string, weight: string, goal: string)

  /** The numbers parsed from the age, height and weight fields. */
  datatype Parsed = Parsed(age: int, height: real, weight: real)

  /** What a valid submission sends to the server. */
  datatype Payload = Payload(age: int, height: real, weight: real, goal: string)

  /** The form's initial state: every field empty. */
  const EmptyForm := Form("", "", "", "")

  const FillAllFields := "Please fill in all fields"
  const InvalidAge := "Please enter a valid age"
  const InvalidHeight := "Please enter height in cm (100-250)"
  const InvalidWeight := "Please enter weight in kg (30-300)"

  /** `handleSubmit`'s checks, in order; the first failure's message is shown. */
  function Submit(form: Form, parsed: Parsed): (r: Result<Payload, string>)
    ensures r.Ok? <==> && form.age != "" && form.height != "" && form.weight != "" && form.goal != ""
                       && 10 <= parsed.age <= 120
                       && 100.0 <= parsed.height <= 250.0
                       && 30.0 <= parsed.weight <= 300.0
    ensures r.Ok? ==> r.value == Payload(parsed.age, parsed.height, parsed.weight, form.goal)
    ensures (form.age == "" || form.height == "" || form.weight == "" || form.goal == "") ==>
              r == Err(FillAllFields)
  {
    if form.age == "" || form.height == "" || form.weight == "" || form.goal == "" then
      Err(FillAllFields)
    else if parsed.age < 10 || parsed.age > 120 then
      Err(InvalidAge)
    else if parsed.height < 100.0 || parsed.height > 250.0 then
      Err(InvalidHeight)
    else if parsed.weight < 30.0 || parsed.weight > 300.0 then
      Err(InvalidWeight)
    else
      Ok(Payload(parsed.age, parsed.height, parsed.weight, form.goal))
  }

  // ---------------------------------------------------------------------------
  // The checks as an ordered list

  /** The four checks of `handleSubmit`. */
  datatype Check = FieldsFilled | AgeInRange | HeightInRange | WeightInRange

  /** The order in which `handleSubmit` runs them. */
  const CheckOrder: seq<Check> := [FieldsFilled, AgeInRange, HeightInRange, WeightInRange]

  /** Whether a check passes, each stated on its own. */
  predicate Passes(form: Form, parsed: Parsed, c: Check) {
    match c
    case FieldsFilled => form.age != "" && form.height != "" && form.weight != "" && form.goal != ""
    case AgeInRange => 10 <= parsed.age <= 120
    case HeightInRange => 100.0 <= parsed.height <= 250.0
    case WeightInRange => 30.0 <= parsed.weight <= 300.0
  }

  /** The alert text of a failed check. */
  function Message(c: Check): string {
    match c
    case FieldsFilled => FillAllFields
    case AgeInRange => InvalidAge
    case HeightInRange => InvalidHeight
    case WeightInRange => InvalidWeight
  }

  /** `Submit` reports exactly the message of the first failing check of
      `CheckOrder`, and accepts when none fails. */
  lemma SubmitReportsFirstFailure(form: Form, parsed: Parsed)
    ensures var first := Validation.FirstFailing(CheckOrder, c => Passes(form, parsed, c));
            && (first.None? ==> Submit(form, parsed).Ok?)
            && (first.Some? ==> Submit(form, parsed) == Err(Message(CheckOrder[first.value])))
  {
    var passes := c => Passes(form, parsed, c);
    var first := Validation.FirstFailing(CheckOrder, passes);
    if first.Some? {
      var i := first.value;
      assert forall j :: 0 <= j < i ==> passes(CheckOrder[j]);
      if i == 0 {
      } else if i == 1 {
        assert passes(CheckOrder[0]);
      } else if i == 2 {
        assert passes(CheckOrder[0]) && passes(CheckOrder[1]);
      } else {
        assert passes(CheckOrder[0]) && passes(CheckOrder[1]) && passes(CheckOrder[2]);
      }
    } else {
      assert forall k :: 0 <= k < |CheckOrder| ==> passes(CheckOrder[k]);
      assert passes(CheckOrder[0]) && passes(CheckOrder[1]);
      assert passes(CheckOrder[2]) && passes(CheckOrder[3]);
    }
  }

  /** The range bounds are inclusive: with filled fields and the other two
      numbers in range, each bound value itself is accepted and a value past
      it is rejected with that field's message. */
  lemma BoundsInclusive(form: Form)
    requires form.age != "" && form.height != "" && form.weight != "" && form.goal != ""
    ensures Submit(form, Parsed(10, 100.0, 30.0)).Ok?
    ensures Submit(form, Parsed(120, 250.0, 300.0)).Ok?
    ensures Submit(form, Parsed(9, 170.0, 70.0)) == Err(InvalidAge)
    ensures Submit(form, Parsed(121, 170.0, 70.0)) == Err(InvalidAge)
    ensures Submit(form, Parsed(30, 99.5, 70.0)) == Err(InvalidHeight)
    ensures Submit(form, Parsed(30, 250.5, 70.0)) == Err(InvalidHeight)
    ensures Submit(form, Parsed(30, 170.0, 29.5)) == Err(InvalidWeight)
    ensures Submit(form, Parsed(30, 170.0, 300.5)) == Err(InvalidWeight)
  {
  }

  // ---------------------------------------------------------------------------
  // Editing the form

  /** What the user can do to the form: type into a number field, or press one
      of the goal buttons (by its position in `GoalOptions`). */
  datatype Edit = SetAge(text: string) | SetHeight(text: string) | SetWeight(text: string) | ChooseGoal(index: nat)

  /** An edit the screen can produce: only the rendered goal buttons exist. */
  predicate Possible(e: Edit) {
    e.ChooseGoal? ==> e.index < |GoalOptions|
  }

  /** `setFormData({ ...formData, <field>: value })`. */
  function Apply(form: Form, e: Edit): (r: Form)
    requires Possible(e)
    ensures e.ChooseGoal? ==> r.goal == GoalOptions[e.index].id
    ensures !e.ChooseGoal? ==> r.goal == form.goal
  {
    match e
    case SetAge(t) => form.(age := t)
    case SetHeight(t) => form.(height := t)
    case SetWeight(t) => form.(weight := t)
    case ChooseGoal(i) => form.(goal := GoalOptions[i].id)
  }

  /** The form after a sequence of edits. */
  function ApplyAll(form: Form, edits: seq<Edit>): Form
    requires forall k :: 0 <= k < |edits| ==> Possible(edits[k])
    decreases |edits|
  {
    if |edits| == 0 then form else ApplyAll(Apply(form, edits[0]), edits[1..])
  }

  /** The goal ids the buttons can set. */
  predicate IsGoalId(s: string) {
    exists i :: 0 <= i < |GoalOptions| && GoalOptions[i].id == s
  }

  /** Starting from a form whose goal is empty or a button id, the goal stays
      empty or a button id whatever the user does. */
  lemma {:induction false} GoalStaysAnOption(form: Form, edits: seq<Edit>)
    requires form.goal == "" || IsGoalId(form.goal)
    requires forall k :: 0 <= k < |edits| ==> Possible(edits[k])
    ensures var f := ApplyAll(form, edits);
            f.goal == "" || IsGoalId(f.goal)
    decreases |edits|
  {
    if |edits| > 0 {
      var next := Apply(form, edits[0]);
      if edits[0].ChooseGoal? {
        assert GoalOptions[edits[0].index].id == next.goal;
      }
      GoalStaysAnOption(next, edits[1..]);
    }
  }

  /** A valid submission from the screen sends one of the five button ids as
      its goal, unchanged, along with the parsed numbers. */
  lemma SubmittedGoalIsAnOption(edits: seq<Edit>, parsed: Parsed)
    requires forall k :: 0 <= k < |edits| ==> Possible(edits[k])
    ensures var r := Submit(ApplyAll(EmptyForm, edits), parsed);
            r.Ok? ==> IsGoalId(r.value.goal) && r.value.age == parsed.age
                      && r.value.height == parsed.height && r.value.weight == parsed.weight
  {
    var f := ApplyAll(EmptyForm, edits);
    GoalStaysAnOption(EmptyForm, edits);
    SubmitKeepsGoal(f, parsed);
  }

  /** A valid form's goal is the one the payload carries, and it is not empty. */
  lemma SubmitKeepsGoal(f: Form, parsed: Parsed)
    requires f.goal == "" || IsGoalId(f.goal)
    ensures Submit(f, parsed).Ok? ==> IsGoalId(Submit(f, parsed).value.goal)
  {
  }

  // ---------------------------------------------------------------------------
  // Across the client and the server

  /** None of the client's goal ids matches a goal name the plan helpers of
      the server recognise, so every goal chosen on this screen yields the
      maintenance calorie target and the maintenance macro split. */
  lemma ClientGoalsAreMaintenance(i: nat)
    requires i < |GoalOptions|
    ensures Nutrition.GoalOf(Some(GoalOptions[i].id)) == Nutrition.Maintain
    ensures forall age: real, height: real, weight: real ::
              var p := Nutrition.Profile(age, height, weight, Some(GoalOptions[i].id));
              Nutrition.CaloriesTarget(p) == Nutrition.MaintenanceTarget(p)
  {
    var id := GoalOptions[i].id;
    var l := Nutrition.ToLower(id);
    assert |l| == |id|;
    assert l[1] == id[1];
    assert l != "lose weight" && l != "weight loss" && l != "gain weight" && l != "weight gain" by {
      // Each id has an '_' where the server's names have a letter or space:
      // position 4 in lose_weight and gain_weight, 5 in build_muscle, 7 in
      // improve_health and 8 in maintain_weight.
      assert l[4] == '_' || l[5] == '_' || l[7] == '_' || l[8] == '_';
    }
    forall age: real, height: real, weight: real {
      Nutrition.GoalAdjustsTarget(Nutrition.Profile(age, height, weight, Some(id)));
    }
  }
}

=== FILE: plan_routes.dfy ===
/** The pure part of the `POST /plans` and `PUT /plans/:id` handlers of
    backend/routes/PlanRoutes.ts: the guards, the BMI derivation and the two
    shallow record merges. The database reads become parameters (the profile
    found for `user_id`, the stored plan found for `id`); what the handlers
    would write is the result. */
module PlanRoutes {
  import opened Common
  import opened Nutrition

  /** A JSON-like value of a plan record. `Undefined` is a key whose value is
      `undefined` (the `bmi` field when no BMI is known). */
  datatype Value =
    | Undefined
    | Null
    | Num(n: real)
    | Str(s: string)
    | Obj(fields: map<string, Value>)

  /** A plan record: an object's own keys and their values. */
  type Record = map<string, Value>

  /** The body of `POST /plans`. */
  datatype CreateBody = CreateBody(userId: Option<real>, planData: Option<Record>, bmi: Option<real>)

  /** The body of `PUT /plans/:id`. */
  datatype UpdateBody = UpdateBody(planData: Option<Record>, bmi: Option<real>)

  /** A row of the `plans` table: the `user_id` column, the plan record and
      the `bmi` column. */
  datatype StoredPlan = StoredPlan(userId: real, planData: Record, bmi: Option<real>)

  const BodyRequired := HttpError(400, "Body required")
  const UserIdRequired := HttpError(400, "user_id is required")
  const ProfileNotFound := HttpError(404, "User profile not found. Please complete onboarding first.")
  const UpdateFieldsRequired := HttpError(400, "plan_data or bmi is required for update")
  const PlanNotFound := HttpError(404, "Plan not found")

  // ---------------------------------------------------------------------------
  // BMI

  /** Body mass index from height in centimetres and weight in kilograms. */
  function Bmi(height: real, weight: real): (r: real)
    requires height != 0.0
    ensures r * (height / 100.0) * (height / 100.0) == weight
    ensures weight > 0.0 ==> r > 0.0
  {
    var metres := height / 100.0;
    assert metres * metres > 0.0;
    weight / (metres * metres)
  }

  /** A supplied truthy `bmi` is kept as is; otherwise it is computed when the
      profile has a non-zero height and weight; otherwise the supplied value
      (absent or zero) stays. */
  function DeriveBmi(supplied: Option<real>, p: Profile): (r: Option<real>)
    ensures NumTruthy(supplied) ==> r == supplied
    ensures !NumTruthy(supplied) && p.height != 0.0 && p.weight != 0.0 ==>
              r.Some? && r.value * (p.height / 100.0) * (p.height / 100.0) == p.weight
    ensures !NumTruthy(supplied) && !(p.height != 0.0 && p.weight != 0.0) ==> r == supplied
  {
    if !NumTruthy(supplied) && p.height != 0.0 && p.weight != 0.0 then
      Some(Bmi(p.height, p.weight))
    else
      supplied
  }

  /** The `bmi` field of a plan record. */
  function BmiValue(b: Option<real>): Value {
    match b
    case None => Undefined
    case Some(x) => Num(x)
  }

  // ---------------------------------------------------------------------------
  // Shallow merges

  /** `{ ...base, ...extra }`: keys of `extra` win, the others of `base` stay.
      A missing `extra` spreads nothing. */
  function Spread(base: Record, extra: Option<Record>): (r: Record)
    ensures extra.None? ==> r == base
    ensures extra.Some? ==> r.Keys == base.Keys + extra.value.Keys
    ensures extra.Some? ==> forall k :: k in extra.value ==> r[k] == extra.value[k]
    ensures forall k :: k in base && (extra.None? || k !in extra.value) ==> k in r && r[k] == base[k]
  {
    match extra
    case None => base
    case Some(e) => base + e
  }

  /** The fields the server computes from the profile, before `plan_data`. */
  function ComputedPlan(p: Profile, bmi: Option<real>): (r: Record)
    ensures r.Keys == {"goal", "age", "height", "weight", "bmi", "calories_target", "macros"}
    ensures r["goal"] == (if p.goal.Some? then Str(p.goal.value) else Null)
    ensures r["age"] == Num(p.age) && r["height"] == Num(p.height) && r["weight"] == Num(p.weight)
    ensures r["bmi"] == BmiValue(bmi)
    ensures r["calories_target"] == Num(CaloriesTarget(p) as real)
    ensures r["macros"] == Obj(map["protein" := Num(MacrosOf(p).protein as real),
                                   "carbs" := Num(MacrosOf(p).carbs as real),
                                   "fat" := Num(MacrosOf(p).fat as real)])
  {
    var m := MacrosOf(p);
    map[
      "goal" := (match p.goal case None => Null case Some(g) => Str(g)),
      "age" := Num(p.age),
      "height" := Num(p.height),
      "weight" := Num(p.weight),
      "bmi" := BmiValue(bmi),
      "calories_target" := Num(CaloriesTarget(p) as real),
      "macros" := Obj(map["protein" := Num(m.protein as real),
                          "carbs" := Num(m.carbs as real),
                          "fat" := Num(m.fat as real)])
    ]
  }

  /** The generated plan: computed fields, overridden key by key by the
      caller's `plan_data`. */
  function GeneratePlan(p: Profile, bmi: Option<real>, planData: Option<Record>): (r: Record)
    ensures planData.None? ==> r == ComputedPlan(p, bmi)
    ensures planData.Some? ==> r.Keys == ComputedPlan(p, bmi).Keys + planData.value.Keys
    ensures planData.Some? ==> forall k :: k in planData.value ==> r[k] == planData.value[k]
  {
    Spread(ComputedPlan(p, bmi), planData)
  }

  // ---------------------------------------------------------------------------
  // Handlers

  /** `POST /plans`. `profile` is the profile row found for `user_id`. The
      result is the row that would be inserted. */
  function CreatePlan(body: Option<CreateBody>, profile: Option<Profile>): (r: Result<StoredPlan, HttpError>)
    ensures body.None? ==> r == Err(BodyRequired)
    ensures body.Some? && !NumTruthy(body.value.userId) ==> r == Err(UserIdRequired)
    ensures body.Some? && NumTruthy(body.value.userId) && profile.None? ==> r == Err(ProfileNotFound)
    ensures r.Ok? <==> body.Some? && NumTruthy(body.value.userId) && profile.Some?
    ensures r.Ok? ==> r.value.bmi == DeriveBmi(body.value.bmi, profile.value)
    ensures r.Ok? ==> r.value.userId == body.value.userId.value
    ensures r.Ok? ==> r.value.planData == GeneratePlan(profile.value, r.value.bmi, body.value.planData)
    ensures r.Ok? ==> r.value.planData.Keys >= ComputedPlan(profile.value, r.value.bmi).Keys
  {
    if body.None? then Err(BodyRequired)
    else if !NumTruthy(body.value.userId) then Err(UserIdRequired)
    else if profile.None? then Err(ProfileNotFound)
    else
      var bmi := DeriveBmi(body.value.bmi, profile.value);
      Ok(StoredPlan(body.value.userId.value, GeneratePlan(profile.value, bmi, body.value.planData), bmi))
  }

  /** `PUT /plans/:id`. `existing` is the stored row found for `id`. The
      result is the row after the update. */
  function UpdatePlan(body: Option<UpdateBody>, existing: Option<StoredPlan>): (r: Result<StoredPlan, HttpError>)
    ensures body.None? ==> r == Err(BodyRequired)
    ensures body.Some? && body.value.planData.None? && !NumTruthy(body.value.bmi) ==>
              r == Err(UpdateFieldsRequired)
    ensures body.Some? && (body.value.planData.Some? || NumTruthy(body.value.bmi)) && existing.None? ==>
              r == Err(PlanNotFound)
    ensures r.Ok? <==> body.Some? && (body.value.planData.Some? || NumTruthy(body.value.bmi))
                       && existing.Some?
    ensures r.Ok? ==> r.value.userId == existing.value.userId
    ensures r.Ok? && NumTruthy(body.value.bmi) ==> r.value.bmi == body.value.bmi
    ensures r.Ok? && !NumTruthy(body.value.bmi) ==> r.value.bmi == existing.value.bmi
    ensures r.Ok? && body.value.planData.Some? ==>
              && r.value.planData.Keys == existing.value.planData.Keys + body.value.planData.value.Keys
              && forall k :: k in body.value.planData.value ==>
                   r.value.planData[k] == body.value.planData.value[k]
    ensures r.Ok? && body.value.planData.None? ==> r.value.planData == existing.value.planData
    ensures r.Ok? ==>
              forall k :: (k in existing.value.planData &&
                           (body.value.planData.None? || k !in body.value.planData.value)) ==>
                k in r.value.planData && r.value.planData[k] == existing.value.planData[k]
  {
    if body.None? then Err(BodyRequired)
    else if body.value.planData.None? && !NumTruthy(body.value.bmi) then Err(UpdateFieldsRequired)
    else if existing.None? then Err(PlanNotFound)
    else
      var merged := Spread(existing.value.planData, body.value.planData);
      Ok(StoredPlan(existing.value.userId, merged, if NumTruthy(body.value.bmi) then body.value.bmi else existing.value.bmi))
  }

  // ---------------------------------------------------------------------------
  // Properties

  /** In the generated plan every key of `plan_data` carries the caller's value,
      every computed field not named there keeps the computed value, and no
      other key appears. */
  lemma CallerDataOverridesComputed(p: Profile, bmi: Option<real>, planData: Record)
    ensures var g := GeneratePlan(p, bmi, Some(planData));
            && g.Keys == ComputedPlan(p, bmi).Keys + planData.Keys
            && (forall k :: k in planData ==> g[k] == planData[k])
            && (forall k :: k in ComputedPlan(p, bmi) && k !in planData ==>
                  g[k] == ComputedPlan(p, bmi)[k])
  {
  }

  /** Without `plan_data` the stored plan is exactly the computed one: the
      profile's fields, the derived BMI (agreeing with the `bmi` column), the
      calculated target and the macros of that same target. */
  lemma CreatedPlanWithoutOverrides(body: CreateBody, p: Profile)
    requires NumTruthy(body.userId) && body.planData.None?
    ensures var r := CreatePlan(Some(body), Some(p));
            && r.Ok?
            && r.value.bmi == DeriveBmi(body.bmi, p)
            && r.value.planData.Keys == {"goal", "age", "height", "weight", "bmi", "calories_target", "macros"}
            && r.value.planData["goal"] == (if p.goal.Some? then Str(p.goal.value) else Null)
            && r.value.planData["age"] == Num(p.age)
            && r.value.planData["height"] == Num(p.height)
            && r.value.planData["weight"] == Num(p.weight)
            && r.value.planData["bmi"] == BmiValue(r.value.bmi)
            && r.value.planData["calories_target"] == Num(CaloriesTarget(p) as real)
            && r.value.planData["macros"] == Obj(map["protein" := Num(MacrosOf(p).protein as real),
                                                     "carbs" := Num(MacrosOf(p).carbs as real),
                                                     "fat" := Num(MacrosOf(p).fat as real)])
  {
  }

  /** Applying the same update twice stores the same row as applying it once. */
  lemma UpdateIdempotent(body: UpdateBody, existing: StoredPlan)
    requires UpdatePlan(Some(body), Some(existing)).Ok?
    ensures var once := UpdatePlan(Some(body), Some(existing)).value;
            UpdatePlan(Some(body), Some(once)) == Ok(once)
  {
    var once := UpdatePlan(Some(body), Some(existing)).value;
    if body.planData.Some? {
      assert once.planData + body.planData.value == once.planData;
    }
  }

  /** An update carrying only a truthy `bmi` changes the `bmi` column and
      leaves the plan record as it was. */
  lemma BmiOnlyUpdateKeepsPlan(b: real, existing: StoredPlan)
    requires b != 0.0
    ensures UpdatePlan(Some(UpdateBody(None, Some(b))), Some(existing))
            == Ok(StoredPlan(existing.userId, existing.planData, Some(b)))
  {
  }
}

=== FILE: signup.dfy ===
/** The sign-up screen of front/MyApp/app/signup.tsx: the checks
    `handleSignUp` runs before it registers the user, and the payload it
    sends. */
module Signup {
  import opened Common
  import Validation

  /** The form state. */
  datatype Form = Form(username: string, email: string, password: string, confirmPassword: string)

  /** The registration payload: the confirmation field has no place in it. */
  datatype Payload = Payload(username: string, email: string, password: string)

  /** Shortest accepted password. */
  const MinPasswordLength := 6

  const FillAllFields := "Please fill in all fields"
  const PasswordsDiffer := "Passwords do not match"
  const PasswordTooShort := "Password must be at least 6 characters"

  /** `handleSignUp`'s checks, in order; the first failure's message is shown. */
  function SignUp(form: Form): (r: Result<Payload, string>)
    ensures r.Ok? <==> && form.username != "" && form.email != "" && form.password != ""
                       && form.password == form.confirmPassword
                       && |form.password| >= MinPasswordLength
    ensures r.Ok? ==> && r.value.username == form.username
                      && r.value.email == form.email
                      && r.value.password == form.password
                      && r.value.password == form.confirmPassword
    ensures (form.username == "" || form.email == "" || form.password == "") ==>
              r == Err(FillAllFields)
  {
    if form.username == "" || form.email == "" || form.password == "" then
      Err(FillAllFields)
    else if form.password != form.confirmPassword then
      Err(PasswordsDiffer)
    else if |form.password| < MinPasswordLength then
      Err(PasswordTooShort)
    else
      Ok(Payload(form.username, form.email, form.password))
  }

  /** The three checks of `handleSignUp`. */
  datatype Check = FieldsFilled | PasswordsMatch | LongEnough

  /** The order in which `handleSignUp` runs them. */
  const CheckOrder: seq<Check> := [FieldsFilled, PasswordsMatch, LongEnough]

  /** Whether a check passes, each stated on its own. */
  predicate Passes(form: Form, c: Check) {
    match c
    case FieldsFilled => form.username != "" && form.email != "" && form.password != ""
    case PasswordsMatch => form.password == form.confirmPassword
    case LongEnough => |form.password| >= MinPasswordLength
  }

  /** The alert text of a failed check. */
  function Message(c: Check): string {
    match c
    case FieldsFilled => FillAllFields
    case PasswordsMatch => PasswordsDiffer
    case LongEnough => PasswordTooShort
  }

  /** `SignUp` reports exactly the message of the first failing check of
      `CheckOrder`, and accepts when none fails. */
  lemma SignUpReportsFirstFailure(form: Form)
    ensures var first := Validation.FirstFailing(CheckOrder, c => Passes(form, c));
            && (first.None? ==> SignUp(form).Ok?)
            && (first.Some? ==> SignUp(form) == Err(Message(CheckOrder[first.value])))
  {
    var passes := c => Passes(form, c);
    var first := Validation.FirstFailing(CheckOrder, passes);
    if first.Some? {
      var i := first.value;
      assert forall j :: 0 <= j < i ==> passes(CheckOrder[j]);
      if i == 1 {
        assert passes(CheckOrder[0]);
      } else if i == 2 {
        assert passes(CheckOrder[0]) && passes(CheckOrder[1]);
      }
    } else {
      assert forall k :: 0 <= k < |CheckOrder| ==> passes(CheckOrder[k]);
      assert passes(CheckOrder[0]) && passes(CheckOrder[1]) && passes(CheckOrder[2]);
    }
  }

  /** The length bound is inclusive: with filled fields, a matching password
      of exactly six characters passes, and one of five is refused for its
      length. */
  lemma SixCharactersSuffice(username: string, email: string, six: string, five: string)
    requires username != "" && email != ""
    requires |six| == 6 && |five| == 5
    ensures SignUp(Form(username, email, six, six)).Ok?
    ensures SignUp(Form(username, email, five, five)) == Err(PasswordTooShort)
  {
  }

  /** A mismatch is reported whatever the password's length, so before a
      short password. */
  lemma MismatchBeforeLength(f: Form)
    requires f.username != "" && f.email != "" && f.password != ""
    requires f.password != f.confirmPassword
    ensures SignUp(f) == Err(PasswordsDiffer)
  {
  }
}

=== FILE: user_routes.dfy ===
/** The pure part of `PUT /user` and `PUT /user/password` in
    backend/routes/UserRoutes.ts: the input guards, and the dynamic `UPDATE`
    statement built from the optional `name` and `email`. Token verification
    is not modelled: `userId` is the id of the verified token. Database lookups
    and the password-hash comparison become boolean inputs. */
module UserRoutes {
  import opened Common

  /** A bound parameter of the statement. */
  datatype Param = Text(s: string) | Id(n: int)

  /** The body of `PUT /user`. */
  datatype ProfileBody = ProfileBody(name: Option<string>, email: Option<string>)

  /** The body of `PUT /user/password`. */
  datatype PasswordBody = PasswordBody(currentPassword: Option<string>, newPassword: Option<string>)

  /** The `updates` clauses, the `values` bound to them, and the query text. */
  datatype Statement = Statement(updates: seq<string>, values: seq<Param>, sql: string)

  const NameClause := "name = ?"
  const EmailClause := "email = ?"
  const MinPasswordLength := 6

  const BodyRequired := HttpError(400, "Body required")
  const FieldRequired := HttpError(400, "At least one field (name or email) is required")
  const UserNotFound := HttpError(404, "User not found")
  const EmailInUse := HttpError(400, "Email already in use")
  const PasswordsRequired := HttpError(400, "Both currentPassword and newPassword are required")
  const PasswordTooShort := HttpError(400, "New password must be at least 6 characters long")
  const PasswordIncorrect := HttpError(400, "Current password is incorrect")

  // ---------------------------------------------------------------------------
  // Strings

  /** The summed length of the parts. */
  function TotalLength(parts: seq<string>): nat {
    if |parts| == 0 then 0 else |parts[0]| + TotalLength(parts[1..])
  }

  /** `Array.prototype.join`: the parts in order with one separator between
      neighbours, so it starts with the first part, ends with the last, and is
      as long as the parts plus one separator fewer than there are parts. */
  function Join(parts: seq<string>, sep: string): (r: string)
    ensures |parts| == 0 ==> r == ""
    ensures |parts| > 0 ==> |r| == TotalLength(parts) + (|parts| - 1) * |sep|
    ensures |parts| > 0 ==> |parts[0]| <= |r| && r[..|parts[0]|] == parts[0]
    ensures |parts| > 0 ==> |parts[|parts| - 1]| <= |r| && r[|r| - |parts[|parts| - 1]|..] == parts[|parts| - 1]
  {
    if |parts| == 0 then ""
    else if |parts| == 1 then parts[0]
    else parts[0] + sep + Join(parts[1..], sep)
  }

  /** How many times `c` occurs in `s`. */
  function Occurrences(s: string, c: char): nat
  {
    if |s| == 0 then 0 else (if s[0] == c then 1 else 0) + Occurrences(s[1..], c)
  }

  /** Counting distributes over concatenation. */
  lemma {:induction false} OccurrencesAppend(a: string, b: string, c: char)
    ensures Occurrences(a + b, c) == Occurrences(a, c) + Occurrences(b, c)
  {
    if |a| > 0 {
      assert (a + b)[1..] == a[1..] + b;
      OccurrencesAppend(a[1..], b, c);
    } else {
      assert a + b == b;
    }
  }

  /** A character that does not occur is counted zero times. */
  lemma {:induction false} OccurrencesAbsent(s: string, c: char)
    requires c !in s
    ensures Occurrences(s, c) == 0
  {
    if |s| > 0 {
      assert s[0] != c;
      assert forall i :: 0 <= i < |s[1..]| ==> s[1..][i] == s[i + 1];
      OccurrencesAbsent(s[1..], c);
    }
  }

  /** A text with no `?` followed by a single `?` holds exactly one. */
  lemma PlaceholderAtEnd(s: string)
    requires '?' !in s
    ensures Occurrences(s + "?", '?') == 1
  {
    OccurrencesAppend(s, "?", '?');
    OccurrencesAbsent(s, '?');
  }

  /** Joining placeholders with a placeholder-free separator keeps one `?` per
      part. */
  lemma {:induction false} JoinPlaceholders(parts: seq<string>, sep: string)
    requires forall i :: 0 <= i < |parts| ==> Occurrences(parts[i], '?') == 1
    requires Occurrences(sep, '?') == 0
    ensures Occurrences(Join(parts, sep), '?') == |parts|
  {
    if |parts| > 1 {
      JoinPlaceholders(parts[1..], sep);
      OccurrencesAppend(parts[0] + sep, Join(parts[1..], sep), '?');
      OccurrencesAppend(parts[0], sep, '?');
    }
  }

  // ---------------------------------------------------------------------------
  // PUT /user

  // "UPDATE users SET ", written in three pieces so that the placeholder
  // count can be proved piece by piece rather than over one long literal.
  const QueryPrefix := "UPDATE " + "users " + "SET "
  const QuerySuffix := " WHERE id = ?"
  const ClauseSeparator := ", "

  /** Each clause holds one placeholder. */
  lemma ClausePlaceholders()
    ensures Occurrences(NameClause, '?') == 1 && Occurrences(EmailClause, '?') == 1
  {
    PlaceholderAtEnd("name = ");
    assert "name = " + "?" == NameClause;
    PlaceholderAtEnd("email = ");
    assert "email = " + "?" == EmailClause;
  }

  /** The fixed texts around the clauses hold one placeholder, the final `id`. */
  lemma FixedTextPlaceholders()
    ensures Occurrences(QueryPrefix, '?') == 0 && Occurrences(ClauseSeparator, '?') == 0
    ensures Occurrences(QuerySuffix, '?') == 1
  {
    PlaceholderAtEnd(" WHERE id = ");
    assert " WHERE id = " + "?" == QuerySuffix;
    OccurrencesAbsent(ClauseSeparator, '?');
    PrefixHasNoPlaceholder();
  }

  /** The fixed `UPDATE users SET ` prefix holds no placeholder. */
  lemma PrefixHasNoPlaceholder()
    ensures Occurrences(QueryPrefix, '?') == 0
  {
    OccurrencesAbsent("UPDATE ", '?');
    OccurrencesAbsent("users ", '?');
    OccurrencesAbsent("SET ", '?');
    OccurrencesAppend("UPDATE " + "users ", "SET ", '?');
    OccurrencesAppend("UPDATE ", "users ", '?');
  }

  /** The clauses: `name = ?` when `name` is truthy, then `email = ?` when
      `email` is. */
  function Clauses(name: Option<string>, email: Option<string>): (u: seq<string>)
    ensures NameClause in u <==> StrTruthy(name)
    ensures EmailClause in u <==> StrTruthy(email)
    ensures forall i :: 0 <= i < |u| ==> u[i] == NameClause || u[i] == EmailClause
    ensures StrTruthy(name) ==> u[0] == NameClause
    ensures |u| == (if StrTruthy(name) then 1 else 0) + (if StrTruthy(email) then 1 else 0)
  {
    if StrTruthy(name) && StrTruthy(email) then [NameClause, EmailClause]
    else if StrTruthy(name) then [NameClause]
    else if StrTruthy(email) then [EmailClause]
    else []
  }

  /** The values bound to the clauses, in the same order, and the user id. */
  function Values(name: Option<string>, email: Option<string>, userId: int): (v: seq<Param>)
    ensures |v| == |Clauses(name, email)| + 1 && v[|v| - 1] == Id(userId)
    ensures forall i :: 0 <= i < |v| - 1 ==>
              (Clauses(name, email)[i] == NameClause ==> v[i] == Text(name.value))
              && (Clauses(name, email)[i] == EmailClause ==> v[i] == Text(email.value))
  {
    if StrTruthy(name) && StrTruthy(email) then [Text(name.value), Text(email.value), Id(userId)]
    else if StrTruthy(name) then [Text(name.value), Id(userId)]
    else if StrTruthy(email) then [Text(email.value), Id(userId)]
    else [Id(userId)]
  }

  /** The query text: one placeholder per clause, and one for the id. */
  function Query(updates: seq<string>): (sql: string)
    requires forall i :: 0 <= i < |updates| ==> updates[i] == NameClause || updates[i] == EmailClause
    ensures Occurrences(sql, '?') == |updates| + 1
  {
    QueryPlaceholders(updates);
    QueryPrefix + Join(updates, ClauseSeparator) + QuerySuffix
  }

  /** The placeholder count of the query text, piece by piece: none in the
      prefix, one per clause, one in the suffix. */
  lemma QueryPlaceholders(updates: seq<string>)
    requires forall i :: 0 <= i < |updates| ==> updates[i] == NameClause || updates[i] == EmailClause
    ensures Occurrences(QueryPrefix + Join(updates, ClauseSeparator) + QuerySuffix, '?') == |updates| + 1
  {
    var j := Join(updates, ClauseSeparator);
    ClausePlaceholders();
    FixedTextPlaceholders();
    JoinPlaceholders(updates, ClauseSeparator);
    assert Occurrences(j, '?') == |updates|;
    OccurrencesAppend(QueryPrefix, j, '?');
    assert Occurrences(QueryPrefix + j, '?') == |updates|;
    OccurrencesAppend(QueryPrefix + j, QuerySuffix, '?');
  }

  /** The statement `PUT /user` runs for the given fields. Its placeholders
      match its bound values one for one. */
  function BuildUpdate(name: Option<string>, email: Option<string>, userId: int): (q: Statement)
    ensures |q.values| == |q.updates| + 1
    ensures Occurrences(q.sql, '?') == |q.values|
  {
    var updates := Clauses(name, email);
    Statement(updates, Values(name, email, userId), Query(updates))
  }

  /** `PUT /user`. `userExists` is the lookup of `userId`; `emailTaken` is the
      lookup of another user with the new email. The result is the statement
      that would be run. */
  function UpdateUser(body: Option<ProfileBody>, userId: int, userExists: bool, emailTaken: bool)
    : (r: Result<Statement, HttpError>)
    ensures body.None? ==> r == Err(BodyRequired)
    ensures body.Some? && !StrTruthy(body.value.name) && !StrTruthy(body.value.email) ==>
              r == Err(FieldRequired)
    ensures body.Some? && (StrTruthy(body.value.name) || StrTruthy(body.value.email)) && !userExists ==>
              r == Err(UserNotFound)
    ensures body.Some? && (StrTruthy(body.value.name) || StrTruthy(body.value.email)) && userExists
            && StrTruthy(body.value.email) && emailTaken ==>
              r == Err(EmailInUse)
    ensures r.Ok? <==> && body.Some? && (StrTruthy(body.value.name) || StrTruthy(body.value.email))
                       && userExists && !(StrTruthy(body.value.email) && emailTaken)
    ensures r.Ok? ==> r.value == BuildUpdate(body.value.name, body.value.email, userId)
    ensures r.Ok? ==> 1 <= |r.value.updates| <= 2
  {
    if body.None? then Err(BodyRequired)
    else if !StrTruthy(body.value.name) && !StrTruthy(body.value.email) then Err(FieldRequired)
    else if !userExists then Err(UserNotFound)
    else if StrTruthy(body.value.email) && emailTaken then Err(EmailInUse)
    else Ok(BuildUpdate(body.value.name, body.value.email, userId))
  }

  /** The statement for each combination of fields, spelled out: the clauses
      joined by ", " between the fixed prefix and the `WHERE` suffix, and the
      values in clause order with the id last. */
  lemma StatementShapes(n: string, e: string, userId: int)
    requires n != "" && e != ""
    ensures var q := BuildUpdate(Some(n), None, userId);
            q.sql == QueryPrefix + NameClause + QuerySuffix && q.values == [Text(n), Id(userId)]
    ensures var q := BuildUpdate(None, Some(e), userId);
            q.sql == QueryPrefix + EmailClause + QuerySuffix && q.values == [Text(e), Id(userId)]
    ensures var q := BuildUpdate(Some(n), Some(e), userId);
            && q.sql == QueryPrefix + NameClause + ClauseSeparator + EmailClause + QuerySuffix
            && q.values == [Text(n), Text(e), Id(userId)]
  {
    assert Join([NameClause, EmailClause], ClauseSeparator) == NameClause + ClauseSeparator + EmailClause;
  }

  // ---------------------------------------------------------------------------
  // PUT /user/password

  /** `PUT /user/password`. `userFound` is the lookup of `userId`;
      `currentMatches` is the hash comparison of the current password. The
      result is the new password that would be hashed and stored. */
  function ChangePassword(body: Option<PasswordBody>, userFound: bool, currentMatches: bool)
    : (r: Result<string, HttpError>)
    ensures body.None? ==> r == Err(BodyRequired)
    ensures body.Some? && (!StrTruthy(body.value.currentPassword) || !StrTruthy(body.value.newPassword)) ==>
              r == Err(PasswordsRequired)
    ensures r.Ok? <==> && body.Some? && StrTruthy(body.value.currentPassword)
                       && StrTruthy(body.value.newPassword)
                       && |body.value.newPassword.value| >= MinPasswordLength
                       && userFound && currentMatches
    ensures body.Some? && StrTruthy(body.value.currentPassword) && StrTruthy(body.value.newPassword) ==>
              var long := |body.value.newPassword.value| >= MinPasswordLength;
              && (!long ==> r == Err(PasswordTooShort))
              && (long && !userFound ==> r == Err(UserNotFound))
              && (long && userFound && !currentMatches ==> r == Err(PasswordIncorrect))
    ensures r.Ok? ==> r.value == body.value.newPassword.value && |r.value| >= MinPasswordLength
  {
    if body.None? then Err(BodyRequired)
    else if !StrTruthy(body.value.currentPassword) || !StrTruthy(body.value.newPassword) then
      Err(PasswordsRequired)
    else if |body.value.newPassword.value| < MinPasswordLength then Err(PasswordTooShort)
    else if !userFound then Err(UserNotFound)
    else if !currentMatches then Err(PasswordIncorrect)
    else Ok(body.value.newPassword.value)
  }

  /** The input guards come before any lookup: when they reject, the outcome
      does not depend on what the lookup or the hash comparison would say. */
  lemma PasswordGuardsPrecedeLookup(body: PasswordBody, found1: bool, match1: bool, found2: bool, match2: bool)
    requires !StrTruthy(body.currentPassword) || !StrTruthy(body.newPassword)
             || |body.newPassword.value| < MinPasswordLength
    ensures ChangePassword(Some(body), found1, match1) == ChangePassword(Some(body), found2, match2)
    ensures ChangePassword(Some(body), found1, match1).Err?
    ensures ChangePassword(Some(body), found1, match1).error.status == 400
  {
  }
}

=== FILE: validation.dfy ===
/** Both client forms run an ordered list of checks and report only the first
    one that fails. This module states that discipline once, generically. */
module Validation {
  import opened Common

  /** The position of the first check of `checks`, in order, that `passes`
      rejects; `None` when every check passes. */
  function FirstFailing<C>(checks: seq<C>, passes: C -> bool): (r: Option<nat>)
    ensures r.None? <==> forall k :: 0 <= k < |checks| ==> passes(checks[k])
    ensures r.Some? ==> r.value < |checks| && !passes(checks[r.value])
    ensures r.Some? ==> forall j :: 0 <= j < r.value ==> passes(checks[j])
  {
    if |checks| == 0 then None
    else if !passes(checks[0]) then Some(0)
    else
      var rest := FirstFailing(checks[1..], passes);
      assert forall k :: 1 <= k < |checks| ==> checks[k] == checks[1..][k - 1];
      if rest.Some? then Some(rest.value + 1) else None
  }
}
